=== FILE: README.md ===
# ECOS ↔ Lean transcoding layer, in Dafny

This project models the C glue (`src/LeanECOS.c`) that connects Lean to
the ECOS conic solver. The glue converts Lean host values into the arrays
and compressed-sparse-column (CSC) matrices that ECOS reads. It drives
ECOS through setup, solve and cleanup. It then packages the results as
Lean values again. A precision tag, `FloatType` (`Dyadic` or `Float`),
selects the numeric representation at each boundary.

- A `Dyadic` is an exact pair `(m, e)` that stands for `m · 2^e`.
- A `Float` is a boxed IEEE 754 binary64 number.

The modules follow the layers of the source:

| module | file | models |
|---|---|---|
| `Binary64` | `binary64.dfy` | the binary64 interchange format of IEEE 754-2008, sections 3.3 and 3.4: fields, their packing, the exact value of a bit pattern |
| `ScalarCodec` | `scalar_codec.dfy` | `read_lean_dyadic`, `read_lean_float`, `read_lean_floattype`, `write_lean_dyadic`, `write_lean_float`, `write_lean_floattype` |
| `ArrayCodec` | `array_codec.dfy` | `read_lean_int_array`, `read_lean_floattype_array`, `write_lean_floattype_array` |
| `SparseMatrix` | `sparse_matrix.dfy` | `read_lean_floattype_sparse_matrix`, including the row-count inference |
| `SolverAdapter` | `solver_adapter.dfy` | `run_solver_unboxed_generic`: problem decoding, lifecycle, result packaging |
| `EntryPoints` | `entry_points.dfy` | the three tag pairs, raw and wrapped in the IO envelope |
| `Wrappers` | `wrappers.dfy` | `Option` |

Modelling decisions:

- **Doubles are bit patterns.** A native double is its 64-bit pattern,
  read as an unsigned integer (`Bits64`). Shifting right by `k` and masking
  to `w` bits become division by `2^k` and remainder modulo `2^w`. This is
  the shift-and-mask reading of the source's bit-field union
  (`float_cast`). Exact values are Dafny `real`s, and `Pow2` is exact for
  every integer exponent.
- **Reading a dyadic is exact.** The source computes
  `(double) m * pow(2, e)`. The model instead returns the binary64 number
  whose value is exactly `m · 2^e`. It finds that number by normalising
  `|m|` into `[2^52, 2^53)` through exact doubling and halving. The
  precondition `Representable` asks for an exponent `-1074 <= e <= 1023`,
  where `pow(2, e)` is itself an exact double. It asks for `|m| < 2^1024`,
  so that `(double) m` does not overflow. It also asks that the value be
  zero or the value of a normal number. Every dyadic round trip in the
  model reads `m` exactly in this way. The source's read narrows `m`
  (see "Left out"), so it does not read back the pairs written for
  non-zero numbers, whose `|m|` is at least `2^52`.
- **Writing a dyadic uses the corrected zero test.** The source tests
  only the mantissa field when it decides to write `(0, 0)`, so every
  power of two is written as zero. `WriteDyadic` models that code as it
  stands. The tagged encoder `WriteFloatType`, and through it the adapter
  and the entry points, uses `WriteDyadicCorrected` instead, which writes
  `(0, 0)` only for ±0 (see "Findings").
- **ECOS is abstract.** An `Ecos` value gives two things: the setup
  outcome (`None` for a null workspace) and the exit code that solve
  returns. The adapter returns its result together with the trace of
  calls it made: `Setup(args)`, `Solve`, `BuildResult`, `Cleanup(0)`.
  `args` holds exactly the sixteen arguments the source passes to
  `ECOS_setup`. Of each sparse matrix these are only the values, the
  column pointers and the row indices, so the inferred row count never
  reaches the solver.
  The exit codes are ECOS's `ECOS_OPTIMAL = 0` and `ECOS_FATAL = -7`.
  `ecos.h` is not part of this model, and the only fact the adapter
  relies on is that these two codes differ.
- **Integers are unbounded.** `read_lean_int` and `write_lean_int` are
  therefore the identity.
- **Preconditions come from the source's callers.** The source never
  checks its inputs, so the model states their shape as preconditions:
  - the tag matches the shape of each scalar;
  - each host array is at least as long as the count the code reads from it;
  - the counts are non-negative.

## Model

| member | source | states |
|---|---|---|
| Binary64.SignField | src/LeanECOS.c:6-13 | the sign field is one bit |
| Binary64.ExponentField | src/LeanECOS.c:5-12 | the biased exponent field is below 2^11 |
| Binary64.MantissaField | src/LeanECOS.c:4-11 | the mantissa field is below 2^52 |
| Binary64.Compose | src/LeanECOS.c:8-15 | packing a sign, exponent and mantissa field gives a pattern from which the three extractions return exactly those fields |
| Binary64.ComposeFields | src/LeanECOS.c:8-15 | every pattern is the packing of its own three fields, so the union's two views determine each other |
| ScalarCodec.Normalize | src/LeanECOS.c:126-129 | a positive magnitude is brought into [2^52, 2^53) without changing `mag·2^e`, and one already in range is left alone |
| ScalarCodec.NormalizeComplete | src/LeanECOS.c:122-130 | whenever `mag·2^e` equals `M·2^k` with `M` in [2^52, 2^53), normalisation succeeds and finds exactly `(M, k)`: the normal form is unique |
| ScalarCodec.RepresentableIsNormalValue | src/LeanECOS.c:122-130 | the decoder's precondition holds exactly when `-1074 <= e <= 1023` (so `pow(2, e)` is exact), `|m| < 2^1024` (so `(double) m` is finite) and either `m = 0` or `m·2^e` is the value of some normal binary64 number |
| ScalarCodec.ReadDyadic | src/LeanECOS.c:122-130 | for a representable pair (`-1074 <= e <= 1023`, `|m| < 2^1024`, value zero or normal), the decoded number's value is exactly `m·2^e`; `m = 0` gives +0.0; any other `m` gives a normal number whose sign bit is set exactly when `m < 0` |
| ScalarCodec.ReadFloat | src/LeanECOS.c:132-134 | unboxing a float returns its bit pattern unchanged, NaNs and infinities included |
| ScalarCodec.ReadFloatType | src/LeanECOS.c:136-143 | under `Dyadic` the result's value is exactly `m·2^e`; under `Float` it is the boxed pattern |
| ScalarCodec.WriteDyadic | src/LeanECOS.c:238-262 | a zero mantissa field writes (0, 0) whatever the sign and exponent (±0, ±∞, every power of two); otherwise `m < 0` exactly when the sign bit is 1, `2^52 <= abs(m) < 2^53` and `-1075 <= e <= 972` |
| ScalarCodec.WriteFloat | src/LeanECOS.c:264-266 | boxing keeps the bit pattern |
| ScalarCodec.WriteFloatType | src/LeanECOS.c:268-275 | the written scalar has the shape the tag selects, a boxed float keeps its pattern, and the scalar is readable under the tag whenever the round trip is promised (any float; any normal number as a dyadic) |
| ScalarCodec.SignedSignificandValue | src/LeanECOS.c:244-251 | for a normal number, the signed significand `±(T + 2^52)` at exponent `E - 1023 - 52` has exactly the number's value |
| ScalarCodec.WriteDyadicExact | src/LeanECOS.c:244-251 | as the code stands, for a normal number with non-zero mantissa field, `e = E - 1023 - 52`, `abs(m) = T + 2^52`, and `m·2^e` is the number's value |
| ScalarCodec.DyadicRoundTrip | src/LeanECOS.c:238-262 | with the encoder as the code stands and `m` read exactly, reading back the pair written for a normal number with non-zero mantissa field returns the same bit pattern |
| ScalarCodec.DyadicValuePreserved | src/LeanECOS.c:122-130 | writing a decoded number back with the corrected encoder keeps the exact value `m·2^e` for every pair the decoder accepts, zero included |
| ScalarCodec.ScalarRoundTrip | src/LeanECOS.c:132-143 | under either tag, what was written is readable and reads back as the native number: every pattern for `Float`, every normal number for `Dyadic`, dyadics with the corrected encoder (as written, powers of two fail: see `OneDoesNotRoundTrip`) |
| ScalarCodec.OneDoesNotRoundTrip | src/LeanECOS.c:245-248 | 1.0 is normal but is written as (0, 0), which reads back as +0.0 |
| ScalarCodec.WriteDyadicCorrected | src/LeanECOS.c:244-252 | with the zero test on both fields, only ±0 are written as (0, 0) and every other pattern keeps its sign; every normal number, powers of two included, reads back as the same bit pattern |
| ScalarCodec.CorrectedAgreesAsWritten | src/LeanECOS.c:244-252 | the corrected encoder and the code as it stands write the same pair exactly when the mantissa field is non-zero or the exponent field is zero; they differ on every power of two and on both infinities |
| ArrayCodec.ReadIntArray | src/LeanECOS.c:147-160 | reading with count n gives exactly n integers, element i being host element i, and n = 0 gives the empty array |
| ArrayCodec.ReadFloatTypeArray | src/LeanECOS.c:164-177 | reading with count n gives exactly n numbers, element i being the scalar decode of host element i under the tag, and n = 0 gives the empty array |
| ArrayCodec.WriteFloatTypeArray | src/LeanECOS.c:279-288 | writing n numbers gives exactly n host scalars, element i being the scalar encode of element i under the tag, dyadics with the corrected encoder, and n = 0 gives the empty array |
| ArrayCodec.ArrayRoundTrip | src/LeanECOS.c:164-177 | reading a written array back returns the native array whenever each element survives the scalar round trip, dyadics with the corrected encoder |
| SparseMatrix.RowMax | src/LeanECOS.c:203-209 | the loop's running maximum is non-negative, bounds every row index seen so far, and is 0 or one of them |
| SparseMatrix.ReadSparseMatrix | src/LeanECOS.c:189-217 | values and row indices have nnz entries, decoded element-wise; the column pointers have cols+1 entries, or none when cols <= 0; rows >= 1, every row index is below rows, and rows - 1 is 0 or a row index; nnz = 0 gives 1 row |
| SparseMatrix.ReadKeepsWellFormed | src/LeanECOS.c:196-214 | valid host column pointers and non-negative row indices give a well-formed CSC record, with every row index in [0, rows) |
| SparseMatrix.InferredRowsExamples | src/LeanECOS.c:201-211 | row indices [0, 2, 1] give 3 rows; a matrix with no non-zeros gets 1 row; cols = 0 gives no column pointers |
| SolverAdapter.ReadProblem | src/LeanECOS.c:21-45 | the twelve fields are read in order: counts are copied; q has ncones entries; G and A are read as sparse matrices; c, h and b have n, m and p entries, decoded under the input tag |
| SolverAdapter.Lifecycle | src/LeanECOS.c:50-83 | setup comes first and nowhere else, with exactly the sixteen arguments of `ECOS_setup`; the trace has 4 calls with a workspace and 2 without; solve and cleanup occur once each when a workspace exists and never otherwise; the result is built exactly once, and cleanup, when present, is the last call |
| SolverAdapter.Package | src/LeanECOS.c:63-79 | an optimal flag reports the workspace's objective and first n solution entries; any other flag reports a zero objective and an empty solution, without reading the workspace; scalars are encoded under the output tag, dyadics with the corrected encoder |
| SolverAdapter.PackageReadsBack | src/LeanECOS.c:67-70 | an optimal result tuple decodes back to the workspace's objective and first n solution entries whenever each survives the scalar round trip under the output tag, dyadics with the corrected encoder |
| SolverAdapter.RunSolverGeneric | src/LeanECOS.c:20-86 | setup is called first and only there, with the sixteen arguments of the decoded problem (the matrices' values, column pointers and row indices, not their row counts); a null workspace gives `ECOS_FATAL` and a 2-call trace with neither solve nor cleanup; otherwise a 4-call trace where solve and then cleanup each run once, with cleanup last and after the result is built; the result follows the rule of `Package`, encoded under the output tag, dyadics with the corrected encoder |
| SolverAdapter.OptimalResultReadsBack | src/LeanECOS.c:67-70 | from an optimal result, a caller reads back the solver's objective and first n solution entries whenever they survive the scalar round trip (always under `Float`), dyadics with the corrected encoder |
| EntryPoints.RunSolverDyadicDyadicUnboxed | src/LeanECOS.c:88-90 | inputs are decoded as dyadics and every output scalar is a dyadic pair |
| EntryPoints.RunSolverDyadicDyadic | src/LeanECOS.c:92-94 | the dyadic/dyadic result wrapped in the IO success envelope |
| EntryPoints.RunSolverFloatFloatUnboxed | src/LeanECOS.c:96-98 | inputs are decoded as floats and every output scalar is a boxed float |
| EntryPoints.RunSolverFloatFloat | src/LeanECOS.c:100-102 | the float/float result wrapped in the IO success envelope |
| EntryPoints.RunSolverFloatDyadicUnboxed | src/LeanECOS.c:104-106 | inputs are decoded as floats and every output scalar is a dyadic pair |
| EntryPoints.RunSolverFloatDyadic | src/LeanECOS.c:108-110 | the float/dyadic result wrapped in the IO success envelope |

## Left out

- The Lean runtime object model is left out: `lean_ctor_get`, `lean_array_get_core`, allocation, boxing, and GMP-backed integers. Host values are Dafny datatypes with the same fields in the same order.
- ECOS internals are left out: `ECOS_setup`, `ECOS_solve`, `ECOS_cleanup` and `newSparseMatrix` are foreign calls. Setup is an abstract outcome and solve an abstract exit code. The model takes as given that a created workspace holds at least `n` solution entries (`SizedFor`).
- ScalarCodec.ReadDyadic: does not model the rounding of `(double) m` and `pow(2, e)`. The decode is exact. Its precondition admits only exponents `-1074 <= e <= 1023`, mantissas with `|m| < 2^1024`, and values that are zero or normal. Outside that the source rounds, and the model makes no claim:
  - `pow(2, e)` is +∞ for `e >= 1024`, so `(0, 1024)` gives NaN (0·∞);
  - `pow(2, e)` is 0 for `e <= -1076`, and rounds to 0 at `e = -1075`, so `(2^53, -1075)` gives 0 although `2^53·2^-1075` is normal;
  - `(double) m` is +∞ for `m >= 2^1024`, so `(2^1024, -1)` gives +∞ although `2^1023` is normal.

  Values needing rounding, subnormal results and overflow are not modelled either. `m` is read unbounded, while `lean_scalar_to_int` at line 126 narrows it to a C `int` (`lean.h` is not part of this model).
- ScalarCodec.DyadicRoundTrip: reads the written pair back with the exact decoder, which takes `m` unbounded. At line 126 the source passes `m` through `lean_scalar_to_int`, which narrows it to a C `int`. Every `m` written at lines 250-254 for a non-zero mantissa field has `|m| >= 2^52`, so the program as a whole does not read these pairs back. The lemma states the as-written encoder against the exact read only.
- ScalarCodec.WriteDyadic: makes no claim for subnormal, infinite or NaN patterns with a non-zero mantissa field beyond the sign and bound facts. The source's output for them is not a meaningful value.
- Fixed-width integer effects are left out: the narrowing of `idxint` and `int` in `read_lean_int` and `write_lean_int`, and the unsigned wrap-around of the multiply at line 251, whose result is the mathematically expected product.
- An invalid precision tag is left out. `read_lean_floattype` and `write_lean_floattype` fall through for it, but a closed Dafny datatype cannot represent it.
- Memory management is left out: `malloc`, NULL as the empty array, buffer ownership passed to ECOS, and its release by cleanup. Cleanup appears only as an event in the trace.
- `read_lean_dyadic_array`, `read_lean_float_array`, `read_lean_dyadic_sparse_matrix`, `read_lean_float_sparse_matrix`, `write_lean_dyadic_array` and `write_lean_float_array` are left out. Each is a one-line application of the tagged function to a fixed tag.
- ScalarCodec.WriteFloatType: writes dyadics with the corrected zero test, so on powers of two and on ±∞ it departs from the code as it stands, which writes (0, 0) for them (see "Findings"). `ScalarCodec.CorrectedAgreesAsWritten` states exactly where the two encoders agree.
- SolverAdapter.Package: under the `Dyadic` output tag, encodes with the corrected zero test. An objective or solution entry that is a power of two, such as 1.0, is written as `(2^52, -52)`, and +∞ as `(2^52, 972)`, not as the `(0, 0)` the code as it stands writes. `ScalarCodec.CorrectedAgreesAsWritten` states exactly where the two encoders agree. The contract promises nothing about the as-written output on those values.
- SolverAdapter.RunSolverGeneric: the result is built by `Package`, so the same departure holds. Under the `Dyadic` output tag, a power of two or ±∞ in the objective or the solution is written as its normal-form pair, not as `(0, 0)`.
- EntryPoints.RunSolverDyadicDyadicUnboxed: its dyadic outputs come from the adapter, so a power of two or ±∞ is written as its normal-form pair, not as the `(0, 0)` the code as it stands writes.
- EntryPoints.RunSolverDyadicDyadic: its dyadic outputs come from the adapter, so a power of two or ±∞ is written as its normal-form pair, not as the `(0, 0)` the code as it stands writes.
- EntryPoints.RunSolverFloatDyadicUnboxed: its dyadic outputs come from the adapter, so a power of two or ±∞ is written as its normal-form pair, not as the `(0, 0)` the code as it stands writes.
- ScalarCodec.ScalarRoundTrip: under `Dyadic` the round trip is proved for the corrected encoder only. As the code stands, 1.0 and every other power of two are written as (0, 0) and read back as +0.0 (`ScalarCodec.OneDoesNotRoundTrip`). The round trip with the encoder as the code stands and `m` read exactly needs a non-zero mantissa field as well (`ScalarCodec.DyadicRoundTrip`).
- ArrayCodec.WriteFloatTypeArray: under `Dyadic` it writes each element with the corrected encoder, so a power of two or ±∞ in the array is written as its normal-form pair, not as the `(0, 0)` the code as it stands writes.
- ArrayCodec.ArrayRoundTrip: under `Dyadic` the round trip holds for the corrected encoder. As the code stands, an array holding a power of two such as 1.0 reads back with +0.0 in its place.
- SolverAdapter.PackageReadsBack: under `Dyadic` the read-back is proved for the corrected encoder. As the code stands, an objective or solution entry that is a power of two reads back as +0.0.
- SolverAdapter.OptimalResultReadsBack: under `Dyadic` the read-back is proved for the corrected encoder. As the code stands, an objective or solution entry that is a power of two reads back as +0.0.
- EntryPoints.RunSolverFloatDyadic: its dyadic outputs come from the adapter, so a power of two or ±∞ is written as its normal-form pair, not as the `(0, 0)` the code as it stands writes.
- Signed zero is not preserved through the dyadic path, as in the source: -0.0 is written as (0, 0) and reads back as +0.0.

## Findings

| source | as written | input that shows it | evidently intended | confidence | as-written member | corrected member |
|---|---|---|---|---|---|---|
| src/LeanECOS.c:245 | the pair (0, 0) is chosen when the mantissa field alone is zero | 1.0 (pattern 0x3FF0000000000000; likewise 2.0, 0.5 and every power of two) is written as (0, 0) and reads back as 0.0 | only ±0 are written as (0, 0), so every finite normal number reads back as the same bit pattern | high; not executed | ScalarCodec.OneDoesNotRoundTrip | ScalarCodec.WriteDyadicCorrected |

`ScalarCodec.WriteDyadic` models the encoder as the code stands.
`ScalarCodec.WriteDyadicCorrected` carries the corrected zero test, and its
contract states the intended round trip for every normal number. The
tagged encoder, the adapter and the entry points use the corrected one.

=== FILE: array_codec.dfy ===
/** The array codecs of src/LeanECOS.c: element-wise maps of the scalar codec
    over a length supplied separately from the host array, filled in index
    order. A zero length gives an empty array without reading the host. */
module ArrayCodec {
  import opened Binary64
  import opened ScalarCodec

  /** read_lean_int_array: the first n host integers. Integers are unbounded
      here, so reading one is the identity. */
  function ReadIntArray(o: seq<int>, n: int): (r: seq<int>)
    requires 0 <= n <= |o|
    ensures |r| == n
    ensures forall i :: 0 <= i < n ==> r[i] == o[i]
    decreases n
  {
    if n == 0 then [] else ReadIntArray(o, n - 1) + [o[n - 1]]
  }

  /** Every one of the first n host scalars can be read under the tag. */
  predicate AllConform(o: seq<HostScalar>, n: int, t: FloatType)
    requires 0 <= n <= |o|
  {
    forall i :: 0 <= i < n ==> Conforms(o[i], t)
  }

  /** read_lean_floattype_array: decode the first n host scalars. */
  function ReadFloatTypeArray(o: seq<HostScalar>, n: int, t: FloatType): (r: seq<Bits64>)
    requires 0 <= n <= |o|
    requires AllConform(o, n, t)
    ensures |r| == n
    ensures forall i :: 0 <= i < n ==> r[i] == ReadFloatType(o[i], t)
    decreases n
  {
    if n == 0 then [] else ReadFloatTypeArray(o, n - 1, t) + [ReadFloatType(o[n - 1], t)]
  }

  /** write_lean_floattype_array: encode the first n native numbers, pushing
      each onto an initially empty host array. */
  function WriteFloatTypeArray(a: seq<Bits64>, n: int, t: FloatType): (r: seq<HostScalar>)
    requires 0 <= n <= |a|
    ensures |r| == n
    ensures forall i :: 0 <= i < n ==> r[i] == WriteFloatType(a[i], t)
    decreases n
  {
    if n == 0 then [] else WriteFloatTypeArray(a, n - 1, t) + [WriteFloatType(a[n - 1], t)]
  }

  /** Reading back a written array gives the native array back, provided
      every element survives the scalar round trip. */
  lemma ArrayRoundTrip(a: seq<Bits64>, t: FloatType)
    requires forall i :: 0 <= i < |a| ==> WritesExactly(a[i], t)
    ensures AllConform(WriteFloatTypeArray(a, |a|, t), |a|, t)
    ensures ReadFloatTypeArray(WriteFloatTypeArray(a, |a|, t), |a|, t) == a
  {
    var w := WriteFloatTypeArray(a, |a|, t);
    forall i | 0 <= i < |a|
      ensures Conforms(w[i], t) && ReadFloatType(w[i], t) == a[i]
    {
      ScalarRoundTrip(a[i], t);
    }
  }
}

=== FILE: binary64.dfy ===
/** The binary64 interchange format of IEEE 754-2008, section 3.4, seen through
    the unsigned 64-bit integer that holds its bit pattern: one sign bit, an
    11-bit biased exponent field and a 52-bit trailing significand field.
    Shifting right by k and masking to w bits are division by 2^k and
    remainder modulo 2^w on that integer. */
module Binary64 {

  const MantissaBits: nat := 52
  const Bias: int := 1023

  /** 2^52: one past the largest mantissa field, and the implicit leading bit
      of a normal number. */
  const MantissaRange: nat := 0x10_0000_0000_0000
  /** 2^11: one past the largest exponent field. */
  const ExponentRange: nat := 0x800
  /** 2^63: the place value of the sign bit. */
  const SignPlace: nat := 0x8000_0000_0000_0000
  /** The all-ones exponent field, reserved for infinities and NaNs. */
  const MaxExponentField: nat := 0x7FF

  /** A binary64 bit pattern, read as an unsigned 64-bit integer. */
  type Bits64 = x: int | 0 <= x < 0x1_0000_0000_0000_0000

  /** +0.0 */
  const PositiveZero: Bits64 := 0
  /** 1.0: sign 0, exponent field 1023, mantissa field 0. */
  const One: Bits64 := 0x3FF0_0000_0000_0000

  function SignField(x: Bits64): (s: nat)
    ensures s < 2
  {
    x / SignPlace
  }

  function ExponentField(x: Bits64): (e: nat)
    ensures e < ExponentRange
  {
    (x / MantissaRange) % ExponentRange
  }

  function MantissaField(x: Bits64): (m: nat)
    ensures m < MantissaRange
  {
    x % MantissaRange
  }

  /** Packs a field triple into a bit pattern; the inverse of the three
      field extractions. */
  function Compose(s: nat, e: nat, m: nat): (x: Bits64)
    requires s < 2 && e < ExponentRange && m < MantissaRange
    ensures SignField(x) == s && ExponentField(x) == e && MantissaField(x) == m
  {
    s * SignPlace + e * MantissaRange + m
  }

  /** Every bit pattern is determined by its three fields. */
  lemma ComposeFields(x: Bits64)
    ensures Compose(SignField(x), ExponentField(x), MantissaField(x)) == x
  {
  }

  predicate IsNormal(x: Bits64) {
    1 <= ExponentField(x) < MaxExponentField
  }

  predicate IsFinite(x: Bits64) {
    ExponentField(x) < MaxExponentField
  }

  predicate IsZero(x: Bits64) {
    ExponentField(x) == 0 && MantissaField(x) == 0
  }

  /** 2^n for a natural n, as a natural number. */
  function Pow2Int(n: nat): (r: nat)
    ensures r >= 1
    ensures n >= 1 ==> r >= 2 && r % 2 == 0
  {
    if n == 0 then 1 else 2 * Pow2Int(n - 1)
  }

  /** 2^k for any integer k, exactly. */
  function Pow2(k: int): (r: real)
    ensures r > 0.0
    decreases if k < 0 then -k else k
  {
    if k == 0 then 1.0
    else if k > 0 then 2.0 * Pow2(k - 1)
    else Pow2(k + 1) / 2.0
  }

  lemma Pow2Succ(k: int)
    ensures Pow2(k + 1) == 2.0 * Pow2(k)
  {
  }

  /** 2^-n is the exact inverse of the natural number 2^n. */
  lemma {:induction false} Pow2NegInverse(n: nat)
    ensures Pow2(-(n as int)) * (Pow2Int(n) as real) == 1.0
  {
    if n > 0 {
      Pow2NegInverse(n - 1);
      var a, b := Pow2(-((n - 1) as int)), Pow2Int(n - 1) as real;
      assert Pow2(-(n as int)) == a / 2.0;
      assert Pow2Int(n) as real == 2.0 * b;
      assert (a / 2.0) * (2.0 * b) == a * b;
    }
  }

  function SignFactor(s: nat): real {
    if s == 1 then -1.0 else 1.0
  }

  /** The real number a finite bit pattern denotes, in the integral
      significand view of IEEE 754-2008, section 3.3: (-1)^S * c * 2^q, where
      a normal number has c = 2^52 + T and q = E - bias - 52, and a zero or
      subnormal one has c = T and q = 1 - bias - 52. Section 3.4 writes the
      same value as (-1)^S * 2^(E - bias) * (1 + T * 2^-52). */
  function Value(x: Bits64): real
    requires IsFinite(x)
  {
    if IsNormal(x) then
      SignFactor(SignField(x)) * ((MantissaField(x) + MantissaRange) as real)
        * Pow2(ExponentField(x) - Bias - MantissaBits)
    else
      SignFactor(SignField(x)) * (MantissaField(x) as real) * Pow2(1 - Bias - MantissaBits)
  }

  /** The pattern One denotes 1.0: the implicit bit 2^52 scaled by 2^-52. */
  lemma OneValue()
    ensures IsNormal(One) && MantissaField(One) == 0 && Value(One) == 1.0
  {
    assert SignField(One) == 0 && ExponentField(One) == Bias && MantissaField(One) == 0;
    Pow2NegInverse(MantissaBits);
    Pow2IntMantissaBits();
    assert Value(One) == (MantissaRange as real) * Pow2(-(MantissaBits as int));
  }

  lemma Pow2IntMantissaBits()
    ensures Pow2Int(MantissaBits) == MantissaRange
  {
    assert Pow2Int(4) == 0x10;
    assert Pow2Int(8) == 0x100;
    assert Pow2Int(12) == 0x1000;
    assert Pow2Int(16) == 0x10000;
    assert Pow2Int(20) == 0x100000;
    assert Pow2Int(24) == 0x1000000;
    assert Pow2Int(28) == 0x10000000;
    assert Pow2Int(32) == 0x100000000;
    assert Pow2Int(36) == 0x1000000000;
    assert Pow2Int(40) == 0x10000000000;
    assert Pow2Int(44) == 0x100000000000;
    assert Pow2Int(48) == 0x1000000000000;
    assert Pow2Int(52) == 0x10000000000000;
  }
}

=== FILE: entry_points.dfy ===
/** The precision dispatch of src/LeanECOS.c: three fixed (input, output)
    tag pairs, each exposed raw (`Unboxed`) and wrapped in the host's IO
    success envelope. */
module EntryPoints {
  import opened ScalarCodec
  import opened SolverAdapter

  /** The host's IO result envelope; these entry points always succeed. */
  datatype IoResult<T> = IoOk(value: T)

  /** run_solver_dyadic_dyadic_unboxed: dyadic in, dyadic out. */
  function RunSolverDyadicDyadicUnboxed(o: HostProblem, ecos: Ecos): (r: Run)
    requires Readable(o, Dyadic) && SizedFor(ecos, o.n)
    ensures |r.trace| >= 2 && r.trace[0] == Setup(SetupArgs(ReadProblem(o, Dyadic)))
    ensures ShapedAs(r.result, Dyadic)
    ensures r == RunSolverGeneric(o, Dyadic, Dyadic, ecos)
  {
    RunSolverGeneric(o, Dyadic, Dyadic, ecos)
  }

  /** run_solver_dyadic_dyadic. */
  function RunSolverDyadicDyadic(o: HostProblem, ecos: Ecos): (r: IoResult<Run>)
    requires Readable(o, Dyadic) && SizedFor(ecos, o.n)
    ensures |r.value.trace| >= 2 && r.value.trace[0] == Setup(SetupArgs(ReadProblem(o, Dyadic)))
    ensures r == IoOk(RunSolverGeneric(o, Dyadic, Dyadic, ecos))
  {
    IoOk(RunSolverDyadicDyadicUnboxed(o, ecos))
  }

  /** run_solver_float_float_unboxed: float in, float out. */
  function RunSolverFloatFloatUnboxed(o: HostProblem, ecos: Ecos): (r: Run)
    requires Readable(o, Float) && SizedFor(ecos, o.n)
    ensures |r.trace| >= 2 && r.trace[0] == Setup(SetupArgs(ReadProblem(o, Float)))
    ensures ShapedAs(r.result, Float)
    ensures r == RunSolverGeneric(o, Float, Float, ecos)
  {
    RunSolverGeneric(o, Float, Float, ecos)
  }

  /** run_solver_float_float. */
  function RunSolverFloatFloat(o: HostProblem, ecos: Ecos): (r: IoResult<Run>)
    requires Readable(o, Float) && SizedFor(ecos, o.n)
    ensures |r.value.trace| >= 2 && r.value.trace[0] == Setup(SetupArgs(ReadProblem(o, Float)))
    ensures r == IoOk(RunSolverGeneric(o, Float, Float, ecos))
  {
    IoOk(RunSolverFloatFloatUnboxed(o, ecos))
  }

  /** run_solver_float_dyadic_unboxed: float in, dyadic out. */
  function RunSolverFloatDyadicUnboxed(o: HostProblem, ecos: Ecos): (r: Run)
    requires Readable(o, Float) && SizedFor(ecos, o.n)
    ensures |r.trace| >= 2 && r.trace[0] == Setup(SetupArgs(ReadProblem(o, Float)))
    ensures ShapedAs(r.result, Dyadic)
    ensures r == RunSolverGeneric(o, Float, Dyadic, ecos)
  {
    RunSolverGeneric(o, Float, Dyadic, ecos)
  }

  /** run_solver_float_dyadic. */
  function RunSolverFloatDyadic(o: HostProblem, ecos: Ecos): (r: IoResult<Run>)
    requires Readable(o, Float) && SizedFor(ecos, o.n)
    ensures |r.value.trace| >= 2 && r.value.trace[0] == Setup(SetupArgs(ReadProblem(o, Float)))
    ensures r == IoOk(RunSolverGeneric(o, Float, Dyadic, ecos))
  {
    IoOk(RunSolverFloatDyadicUnboxed(o, ecos))
  }
}

=== FILE: scalar_codec.dfy ===
/** The scalar codec of src/LeanECOS.c: host scalars are either a dyadic pair
    (m, e) standing for m * 2^e, or a boxed float; the precision tag chooses
    which of the two a call boundary reads or writes. */
module ScalarCodec {
  import opened Wrappers
  import opened Binary64

  /** The precision tag (include/LeanECOS.h, enum FloatType). */
  datatype FloatType = Dyadic | Float

  /** A host scalar: a Lean `Dyadic` structure (two integers) or a boxed
      Lean `Float` holding a binary64 bit pattern. */
  datatype HostScalar = DyadicPair(m: int, e: int) | BoxedFloat(f: Bits64)

  function Abs(i: int): nat {
    if i < 0 then -i else i
  }

  /** The exact rational a dyadic pair denotes. */
  function DyadicValue(m: int, e: int): real {
    (m as real) * Pow2(e)
  }

  // ---------------------------------------------------------------------
  // Reading a dyadic pair exactly
  // ---------------------------------------------------------------------

  /** Halving an even significand while raising the exponent keeps the
      value. */
  lemma HalveExact(a: nat, e: int)
    requires a % 2 == 0
    ensures DyadicValue(a / 2, e + 1) == DyadicValue(a, e)
  {
    Pow2Succ(e);
    HalveStep(a, Pow2(e), Pow2(e + 1));
  }

  lemma HalveStep(a: nat, p: real, q: real)
    requires a % 2 == 0 && q == 2.0 * p
    ensures ((a / 2) as real) * q == (a as real) * p
  {
    assert (a as real) == 2.0 * ((a / 2) as real);
  }

  /** Doubling a significand while lowering the exponent keeps the value. */
  lemma DoubleExact(a: nat, e: int)
    ensures DyadicValue(a * 2, e - 1) == DyadicValue(a, e)
  {
    Pow2Succ(e - 1);
    DoubleStep(a, Pow2(e - 1), Pow2(e));
  }

  lemma DoubleStep(a: nat, q: real, p: real)
    requires p == 2.0 * q
    ensures ((a * 2) as real) * q == (a as real) * p
  {
  }

  /** Brings a positive magnitude into [2^52, 2^53) by exact doubling or
      halving, adjusting the exponent so that the value is unchanged; None
      when halving would drop a set bit, i.e. the value needs more than 53
      significant bits. */
  function Normalize(mag: nat, e: int): (r: Option<(nat, int)>)
    requires mag > 0
    ensures r.Some? ==> MantissaRange <= r.value.0 < 2 * MantissaRange
    ensures r.Some? ==> DyadicValue(r.value.0, r.value.1) == DyadicValue(mag, e)
    ensures MantissaRange <= mag < 2 * MantissaRange ==> r == Some((mag, e))
    decreases if mag >= 2 * MantissaRange then mag else 2 * MantissaRange - mag
  {
    if mag >= 2 * MantissaRange then
      if mag % 2 == 0 then
        HalveExact(mag, e);
        Normalize(mag / 2, e + 1)
      else None
    else if mag < MantissaRange then
      DoubleExact(mag, e);
      Normalize(mag * 2, e - 1)
    else Some((mag, e))
  }

  lemma CancelCommon(a: real, b: real, x: real)
    requires x > 0.0 && a * x == b * x
    ensures a == b
  {
    assert (a - b) * x == 0.0;
  }

  lemma DoubleProduct(b: nat, p: nat, q: nat)
    requires q == 2 * p
    ensures (b * 2) * p == b * q
  {
  }

  /** Two equal dyadic values with exponents k >= e: the significand at the
      smaller exponent is the other one times 2^(k - e). */
  lemma {:induction false} ScaledEqual(a: nat, e: int, b: nat, k: int)
    requires k >= e && DyadicValue(a, e) == DyadicValue(b, k)
    ensures a == b * Pow2Int(k - e)
    decreases k - e
  {
    if k == e {
      assert (a as real) * Pow2(e) == (b as real) * Pow2(e);
      CancelCommon(a as real, b as real, Pow2(e));
    } else {
      var d := k - e;
      DoubleExact(b, k);
      ScaledEqual(a, e, b * 2, e + (d - 1));
      DoubleProduct(b, Pow2Int(d - 1), Pow2Int(d));
    }
  }

  lemma ProductFacts(a: nat, p: nat)
    ensures p >= 1 ==> a * p >= a
    ensures p >= 2 ==> a * p >= 2 * a
    ensures p % 2 == 0 ==> (a * p) % 2 == 0
  {
    if p % 2 == 0 {
      assert a * p == 2 * (a * (p / 2));
    }
  }

  /** Normalisation finds the significand in [2^52, 2^53) of a value
      whenever one exists: such a significand and exponent are unique. */
  lemma {:induction false} NormalizeComplete(mag: nat, e: int, M: nat, k: int)
    requires mag > 0 && MantissaRange <= M < 2 * MantissaRange
    requires DyadicValue(M, k) == DyadicValue(mag, e)
    ensures Normalize(mag, e) == Some((M, k))
    decreases if mag >= 2 * MantissaRange then mag else 2 * MantissaRange - mag
  {
    if mag >= 2 * MantissaRange {
      if mag % 2 == 0 {
        HalveExact(mag, e);
        NormalizeComplete(mag / 2, e + 1, M, k);
      } else if k >= e {
        // mag = M * 2^(k - e) is either M, which is too small, or even
        ScaledEqual(mag, e, M, k);
        ProductFacts(M, Pow2Int(k - e));
        assert false;
      } else {
        // M = mag * 2^(e - k) would be at least mag, which is too large
        ScaledEqual(M, k, mag, e);
        ProductFacts(mag, Pow2Int(e - k));
        assert false;
      }
    } else if mag < MantissaRange {
      DoubleExact(mag, e);
      NormalizeComplete(mag * 2, e - 1, M, k);
    } else if k > e {
      // mag = M * 2^(k - e) would be at least 2^53
      ScaledEqual(mag, e, M, k);
      ProductFacts(M, Pow2Int(k - e));
      assert false;
    } else if k < e {
      // M = mag * 2^(e - k) would be at least 2^53
      ScaledEqual(M, k, mag, e);
      ProductFacts(mag, Pow2Int(e - k));
      assert false;
    } else {
      CancelCommon(mag as real, M as real, Pow2(e));
    }
  }

  /** The exponents k for which 2^k is itself a binary64 number, from the
      smallest subnormal 2^-1074 to the largest power 2^1023: exactly those
      for which `pow(2, e)` is exact. */
  const MinExactPower: int := -1074
  const MaxExactPower: int := 1023
  /** 2^1024: the integers below it in magnitude convert to binary64 without
      overflowing to an infinity. */
  const DoubleOverflow: nat :=
    0x1_0000_0000_0000_0000_0000_0000_0000_0000_0000_0000_0000_0000_0000_0000_0000_0000_0000_0000_0000_0000_0000_0000_0000_0000_0000_0000_0000_0000_0000_0000_0000_0000_0000_0000_0000_0000_0000_0000_0000_0000_0000_0000_0000_0000_0000_0000_0000_0000_0000_0000_0000_0000_0000_0000_0000_0000_0000_0000_0000_0000_0000_0000_0000_0000

  /** A dyadic pair the exact decoder accepts: `pow(2, e)` is exact, `m`
      does not overflow when converted to binary64, and the value is zero or
      a normal binary64 number. A normal value needs at most 53 significant
      bits of `m`, so the conversion of `m` is then exact, and with both
      factors exact so is the product of the decoder. */
  predicate Representable(m: int, e: int) {
    && MinExactPower <= e <= MaxExactPower
    && Abs(m) < DoubleOverflow
    && (m == 0 ||
        (var r := Normalize(Abs(m), e);
         r.Some? && 1 <= r.value.1 + Bias + MantissaBits < MaxExponentField))
  }

  /** The value of a normal number, with its integer significand M and
      exponent k named by the caller. */
  lemma NormalValueAt(x: Bits64, M: nat, k: int)
    requires IsNormal(x)
    requires M == MantissaField(x) + MantissaRange
    requires k == ExponentField(x) - Bias - MantissaBits
    ensures Value(x) == SignFactor(SignField(x)) * DyadicValue(M, k)
  {
  }

  lemma SignedValue(m: int, e: int)
    ensures DyadicValue(m, e) == SignFactor(if m < 0 then 1 else 0) * DyadicValue(Abs(m), e)
  {
  }

  lemma ScaleBoth(c: real, a: real, b: real)
    requires a == b
    ensures c * a == c * b
  {
  }

  /** read_lean_dyadic: the binary64 number whose value is exactly m * 2^e. */
  function ReadDyadic(m: int, e: int): (x: Bits64)
    requires Representable(m, e)
    ensures m == 0 ==> x == PositiveZero
    ensures m != 0 ==> IsNormal(x) && (SignField(x) == 1 <==> m < 0)
    ensures IsFinite(x) && Value(x) == DyadicValue(m, e)
  {
    if m == 0 then PositiveZero
    else
      var r := Normalize(Abs(m), e).value;
      var s := if m < 0 then 1 else 0;
      var x := Compose(s, r.1 + Bias + MantissaBits, r.0 - MantissaRange);
      ComposedValue(x, m, e, r.0, r.1);
      x
  }

  /** A normal number with the sign of m whose significand and exponent
      give the magnitude |m| * 2^e has the value m * 2^e. */
  lemma ComposedValue(x: Bits64, m: int, e: int, M: nat, k: int)
    requires IsNormal(x) && SignField(x) == (if m < 0 then 1 else 0)
    requires M == MantissaField(x) + MantissaRange
    requires k == ExponentField(x) - Bias - MantissaBits
    requires DyadicValue(M, k) == DyadicValue(Abs(m), e)
    ensures Value(x) == DyadicValue(m, e)
  {
    NormalValueAt(x, M, k);
    ScaleBoth(SignFactor(SignField(x)), DyadicValue(M, k), DyadicValue(Abs(m), e));
    SignedValue(m, e);
  }

  lemma SignedMagnitudes(s1: real, a: real, s2: real, b: real)
    requires s1 == 1.0 || s1 == -1.0
    requires s2 == 1.0 || s2 == -1.0
    requires a > 0.0 && b > 0.0 && s1 * a == s2 * b
    ensures a == b
  {
  }

  /** Within the exact range of `pow(2, e)` and of the conversion of `m`, the
      decoder accepts exactly zero and the values of normal numbers. */
  lemma RepresentableIsNormalValue(m: int, e: int)
    ensures Representable(m, e) <==>
              && MinExactPower <= e <= MaxExactPower
              && Abs(m) < DoubleOverflow
              && (m == 0 || exists x: Bits64 :: IsNormal(x) && Value(x) == DyadicValue(m, e))
  {
    if MinExactPower <= e <= MaxExactPower && Abs(m) < DoubleOverflow && m != 0
       && exists x: Bits64 :: IsNormal(x) && Value(x) == DyadicValue(m, e) {
      var x: Bits64 :| IsNormal(x) && Value(x) == DyadicValue(m, e);
      var M := MantissaField(x) + MantissaRange;
      var k := ExponentField(x) - Bias - MantissaBits;
      NormalValueAt(x, M, k);
      SignedValue(m, e);
      SignedMagnitudes(SignFactor(SignField(x)), DyadicValue(M, k),
                       SignFactor(if m < 0 then 1 else 0), DyadicValue(Abs(m), e));
      NormalizeComplete(Abs(m), e, M, k);
    }
    if Representable(m, e) && m != 0 {
      var x := ReadDyadic(m, e);
      assert IsNormal(x) && Value(x) == DyadicValue(m, e);
    }
  }

  /** read_lean_float: the boxed bit pattern, unchanged. */
  function ReadFloat(f: Bits64): (x: Bits64)
    ensures x == f
  {
    f
  }

  /** A host scalar has the shape the tag asks for, and an exact value the
      decoder can represent. */
  predicate Conforms(o: HostScalar, t: FloatType) {
    match t
    case Dyadic => o.DyadicPair? && Representable(o.m, o.e)
    case Float => o.BoxedFloat?
  }

  /** read_lean_floattype: decode one scalar under the tag. */
  function ReadFloatType(o: HostScalar, t: FloatType): (x: Bits64)
    requires Conforms(o, t)
    ensures t == Dyadic ==> IsFinite(x) && Value(x) == DyadicValue(o.m, o.e)
    ensures t == Float ==> x == o.f
  {
    match t
    case Dyadic => ReadDyadic(o.m, o.e)
    case Float => ReadFloat(o.f)
  }

  // ---------------------------------------------------------------------
  // Writing a dyadic pair
  // ---------------------------------------------------------------------

  /** The pair both encoders write for a pattern they do not treat as zero:
      the mantissa field with the implicit leading bit restored, signed by
      the sign bit, and the exponent field less the bias and the field
      width. */
  function SignedSignificand(x: Bits64): HostScalar {
    var s := if SignField(x) == 1 then -1 else 1;
    DyadicPair(s * (MantissaField(x) + MantissaRange), ExponentField(x) - Bias - MantissaBits)
  }

  /** The signed significand of a normal number reads back as that number. */
  lemma SignedSignificandReadsBack(x: Bits64)
    requires IsNormal(x)
    ensures Representable(SignedSignificand(x).m, SignedSignificand(x).e)
    ensures ReadDyadic(SignedSignificand(x).m, SignedSignificand(x).e) == x
  {
    var r := SignedSignificand(x);
    assert Normalize(Abs(r.m), r.e) == Some((Abs(r.m), r.e));
    ComposeFields(x);
  }

  /** The exact value of the signed significand of a normal number is the
      number's value. */
  lemma SignedSignificandValue(x: Bits64)
    requires IsNormal(x)
    ensures DyadicValue(SignedSignificand(x).m, SignedSignificand(x).e) == Value(x)
  {
    var M := MantissaField(x) + MantissaRange;
    var k := ExponentField(x) - Bias - MantissaBits;
    NormalValueAt(x, M, k);
    SignedValue(SignedSignificand(x).m, k);
  }

  /** write_lean_dyadic, as written: the mantissa field alone decides whether
      the pair is (0, 0), so every power of two (1.0, 0.5, ...) is written
      as zero along with +0.0 and -0.0. */
  function WriteDyadic(x: Bits64): (r: HostScalar)
    ensures r.DyadicPair?
    ensures MantissaField(x) == 0 ==> r.m == 0 && r.e == 0
    ensures MantissaField(x) != 0 ==>
              && (r.m < 0 <==> SignField(x) == 1)
              && MantissaRange <= Abs(r.m) < 2 * MantissaRange
              && -1075 <= r.e <= 972
  {
    if MantissaField(x) == 0 then DyadicPair(0, 0) else SignedSignificand(x)
  }

  /** For a normal number with a non-zero mantissa field the pair written
      as the code stands is exact: its exponent is the unbiased one less 52,
      its magnitude the mantissa field plus the implicit bit, and m * 2^e is
      the number. */
  lemma WriteDyadicExact(x: Bits64)
    requires IsNormal(x) && MantissaField(x) != 0
    ensures WriteDyadic(x).e == ExponentField(x) - Bias - MantissaBits
    ensures Abs(WriteDyadic(x).m) == MantissaField(x) + MantissaRange
    ensures DyadicValue(WriteDyadic(x).m, WriteDyadic(x).e) == Value(x)
  {
    SignedSignificandValue(x);
  }

  /** With the encoder as the code stands and `m` read exactly, reading back
      what was written gives the same bit pattern whenever the mantissa field
      is non-zero. */
  lemma DyadicRoundTrip(x: Bits64)
    requires IsNormal(x) && MantissaField(x) != 0
    ensures Representable(WriteDyadic(x).m, WriteDyadic(x).e)
    ensures ReadDyadic(WriteDyadic(x).m, WriteDyadic(x).e) == x
  {
    SignedSignificandReadsBack(x);
  }

  /** 1.0 is a normal number, yet the pair written for it as the code
      stands is (0, 0), which reads back as +0.0: the round trip fails for
      every power of two. */
  lemma OneDoesNotRoundTrip()
    ensures IsNormal(One) && MantissaField(One) == 0 && Value(One) == 1.0
    ensures WriteDyadic(One) == DyadicPair(0, 0)
    ensures ReadDyadic(0, 0) == PositiveZero != One
  {
    OneValue();
  }

  /** The encoder with the zero test on both fields: only +0.0 and -0.0
      (exponent and mantissa fields both zero) become (0, 0), and every
      normal number, powers of two included, reads back unchanged. This is
      the encoder the rest of the model uses. */
  function WriteDyadicCorrected(x: Bits64): (r: HostScalar)
    ensures r.DyadicPair?
    ensures IsZero(x) ==> r == DyadicPair(0, 0)
    ensures !IsZero(x) ==> (r.m < 0 <==> SignField(x) == 1) && MantissaRange <= Abs(r.m)
    ensures IsNormal(x) ==> Representable(r.m, r.e) && ReadDyadic(r.m, r.e) == x
  {
    if IsZero(x) then
      DyadicPair(0, 0)
    else if IsNormal(x) then
      SignedSignificandReadsBack(x);
      SignedSignificand(x)
    else
      SignedSignificand(x)
  }

  /** Writing what was read keeps the exact value m * 2^e. */
  lemma DyadicValuePreserved(m: int, e: int)
    requires Representable(m, e)
    ensures DyadicValue(WriteDyadicCorrected(ReadDyadic(m, e)).m, WriteDyadicCorrected(ReadDyadic(m, e)).e)
            == DyadicValue(m, e)
  {
    if m != 0 {
      SignedSignificandValue(ReadDyadic(m, e));
    }
  }

  /** write_lean_float: box the bit pattern. */
  function WriteFloat(x: Bits64): (r: HostScalar)
    ensures r.BoxedFloat? && r.f == x
  {
    BoxedFloat(x)
  }

  /** The inputs on which writing then reading a scalar under the tag gives
      the bit pattern back: any pattern when boxed, and a normal number when
      written as a dyadic pair by the corrected encoder, `m` being read
      exactly. With the encoder as the code stands, the dyadic round trip
      also needs a non-zero mantissa field (see `DyadicRoundTrip` and
      `OneDoesNotRoundTrip`). */
  predicate WritesExactly(x: Bits64, t: FloatType) {
    t == Float || IsNormal(x)
  }

  /** write_lean_floattype: encode one scalar under the tag, with the
      corrected dyadic encoder. */
  function WriteFloatType(x: Bits64, t: FloatType): (r: HostScalar)
    ensures r.DyadicPair? <==> t == Dyadic
    ensures t == Float ==> r.f == x
    ensures WritesExactly(x, t) ==> Conforms(r, t)
  {
    match t
    case Dyadic => WriteDyadicCorrected(x)
    case Float => WriteFloat(x)
  }

  /** Scalar round trip under either tag, on the inputs it is promised for. */
  lemma ScalarRoundTrip(x: Bits64, t: FloatType)
    requires WritesExactly(x, t)
    ensures Conforms(WriteFloatType(x, t), t)
    ensures ReadFloatType(WriteFloatType(x, t), t) == x
  {
  }

  /** The corrected encoder writes what the code as it stands writes, except
      on the patterns with a zero mantissa field and a non-zero exponent
      field: the powers of two, and the infinities. */
  lemma CorrectedAgreesAsWritten(x: Bits64)
    ensures WriteDyadicCorrected(x) == WriteDyadic(x) <==>
              MantissaField(x) != 0 || ExponentField(x) == 0
  {
    if MantissaField(x) == 0 && ExponentField(x) != 0 {
      assert MantissaRange <= Abs(WriteDyadicCorrected(x).m);
    }
  }
}

=== FILE: solver_adapter.dfy ===
/** The solver invocation adapter of src/LeanECOS.c (run_solver_unboxed_generic):
    decode the 12-field problem under the input tag, call setup, solve when a
    workspace was created, encode the results under the output tag, build the
    result tuple, then clean up. ECOS itself is abstract: the outcome of
    setup and the exit code of solve are given, and every call is recorded in
    an event trace. */
module SolverAdapter {
  import opened Wrappers
  import opened Binary64
  import opened ScalarCodec
  import opened ArrayCodec
  import opened SparseMatrix

  /** ECOS exit codes used by the adapter (ecos.h): a successful solve, and
      the code it reports itself when setup returns no workspace. */
  const EcosOptimal: int := 0
  const EcosFatal: int := -7

  /** The host problem: (n, m, p, l, ncones, q, e, G, A, c, h, b). */
  datatype HostProblem = HostProblem(n: int, m: int, p: int, l: int, ncones: int,
                                     q: seq<int>, e: int, G: HostMatrix, A: HostMatrix,
                                     c: seq<HostScalar>, h: seq<HostScalar>, b: seq<HostScalar>)

  /** The same problem in the solver's native form: counts, cone sizes,
      the two sparse matrices with their headers, and the three vectors. */
  datatype Problem = Problem(n: int, m: int, p: int, l: int, ncones: int,
                             q: seq<int>, e: int, G: Csc, A: Csc,
                             c: seq<Bits64>, h: seq<Bits64>, b: seq<Bits64>)

  /** The workspace fields the adapter reads: the objective value and the
      primal solution. */
  datatype Workspace = Workspace(cx: Bits64, x: seq<Bits64>)

  /** What ECOS does on this call: the setup outcome (None for a null
      workspace) and the exit code solve would return. */
  datatype Ecos = Ecos(setupOutcome: Option<Workspace>, solveExit: int)

  /** The sixteen arguments of ECOS_setup: the counts, the cone sizes, and
      of each matrix only its values, column pointers and row indices. The
      matrix headers (rows, cols, nnz) are built but never passed. */
  datatype SetupCall = SetupCall(n: int, m: int, p: int, l: int, ncones: int, q: seq<int>, e: int,
                                 Gpr: seq<Bits64>, Gjc: seq<int>, Gir: seq<int>,
                                 Apr: seq<Bits64>, Ajc: seq<int>, Air: seq<int>,
                                 c: seq<Bits64>, h: seq<Bits64>, b: seq<Bits64>)

  /** The arguments setup receives for a decoded problem. */
  function SetupArgs(problem: Problem): SetupCall {
    SetupCall(problem.n, problem.m, problem.p, problem.l, problem.ncones, problem.q, problem.e,
              problem.G.pr, problem.G.jc, problem.G.ir,
              problem.A.pr, problem.A.jc, problem.A.ir,
              problem.c, problem.h, problem.b)
  }

  /** The calls the adapter makes, in the order it makes them. */
  datatype Event = Setup(args: SetupCall) | Solve | BuildResult | Cleanup(keepVars: int)

  /** The result tuple (exitFlag, objective, solution). */
  datatype HostResult = HostResult(exitFlag: int, objective: HostScalar, solution: seq<HostScalar>)

  datatype Run = Run(result: HostResult, trace: seq<Event>)

  /** What the readers demand of the host problem: non-negative counts, and
      arrays and matrices that can be read with those counts under the tag. */
  predicate Readable(o: HostProblem, t: FloatType) {
    && o.n >= 0 && o.m >= 0 && o.p >= 0 && o.ncones >= 0
    && o.ncones <= |o.q|
    && SparseMatrix.Readable(o.G, t) && SparseMatrix.Readable(o.A, t)
    && o.n <= |o.c| && AllConform(o.c, o.n, t)
    && o.m <= |o.h| && AllConform(o.h, o.m, t)
    && o.p <= |o.b| && AllConform(o.b, o.p, t)
  }

  /** Decode all twelve fields under the input tag. */
  function ReadProblem(o: HostProblem, t: FloatType): (r: Problem)
    requires Readable(o, t)
    ensures r.n == o.n && r.m == o.m && r.p == o.p && r.l == o.l && r.ncones == o.ncones && r.e == o.e
    ensures r.q == o.q[..o.ncones]
    ensures r.G == ReadSparseMatrix(o.G, t) && r.A == ReadSparseMatrix(o.A, t)
    ensures |r.c| == o.n && forall i :: 0 <= i < o.n ==> r.c[i] == ReadFloatType(o.c[i], t)
    ensures |r.h| == o.m && forall i :: 0 <= i < o.m ==> r.h[i] == ReadFloatType(o.h[i], t)
    ensures |r.b| == o.p && forall i :: 0 <= i < o.p ==> r.b[i] == ReadFloatType(o.b[i], t)
  {
    Problem(o.n, o.m, o.p, o.l, o.ncones, ReadIntArray(o.q, o.ncones), o.e,
            ReadSparseMatrix(o.G, t), ReadSparseMatrix(o.A, t),
            ReadFloatTypeArray(o.c, o.n, t), ReadFloatTypeArray(o.h, o.m, t),
            ReadFloatTypeArray(o.b, o.p, t))
  }

  /** ECOS's side of the contract: a workspace it creates holds a primal
      solution of (at least) n entries. */
  predicate SizedFor(ecos: Ecos, n: int) {
    ecos.setupOutcome.Some? ==> n <= |ecos.setupOutcome.value.x|
  }

  /** Every scalar of the result has the shape of the output tag. */
  predicate ShapedAs(r: HostResult, t: FloatType) {
    && (r.objective.DyadicPair? <==> t == Dyadic)
    && forall i :: 0 <= i < |r.solution| ==> (r.solution[i].DyadicPair? <==> t == Dyadic)
  }

  /** The calls of one run: setup, then solve when a workspace was created,
      then building the result, then cleanup of that workspace. */
  function Lifecycle(problem: Problem, created: bool): (trace: seq<Event>)
    ensures |trace| == (if created then 4 else 2) && trace[0] == Setup(SetupArgs(problem))
    ensures forall i :: 0 <= i < |trace| ==>
              && (trace[i].Setup? <==> i == 0)
              && (trace[i].Cleanup? ==> created && i == |trace| - 1)
    ensures multiset(trace)[Solve] == (if created then 1 else 0)
    ensures multiset(trace)[Cleanup(0)] == (if created then 1 else 0)
    ensures multiset(trace)[BuildResult] == 1
    ensures created ==> trace[1] == Solve && trace[|trace| - 2] == BuildResult && trace[|trace| - 1] == Cleanup(0)
    ensures !created ==> trace[|trace| - 1] == BuildResult
  {
    if created then [Setup(SetupArgs(problem)), Solve, BuildResult, Cleanup(0)]
    else [Setup(SetupArgs(problem)), BuildResult]
  }

  /** The result tuple: an optimal run reports the workspace's objective and
      first n solution entries, any other run a zero objective and an empty
      solution, all encoded under the output tag. The workspace is only
      looked at on an optimal run. */
  function Package(exitFlag: int, work: Option<Workspace>, n: int, to: FloatType): (r: HostResult)
    requires exitFlag == EcosOptimal ==> work.Some? && 0 <= n <= |work.value.x|
    ensures r.exitFlag == exitFlag
    ensures ShapedAs(r, to)
    ensures exitFlag == EcosOptimal ==>
              && r.objective == WriteFloatType(work.value.cx, to)
              && |r.solution| == n
              && forall i :: 0 <= i < n ==> r.solution[i] == WriteFloatType(work.value.x[i], to)
    ensures exitFlag != EcosOptimal ==>
              r.objective == WriteFloatType(PositiveZero, to) && r.solution == []
  {
    if exitFlag == EcosOptimal then
      HostResult(exitFlag, WriteFloatType(work.value.cx, to), WriteFloatTypeArray(work.value.x, n, to))
    else
      HostResult(exitFlag, WriteFloatType(PositiveZero, to), WriteFloatTypeArray([], 0, to))
  }

  /** run_solver_unboxed_generic. */
  function RunSolverGeneric(o: HostProblem, ti: FloatType, to: FloatType, ecos: Ecos): (r: Run)
    requires Readable(o, ti) && SizedFor(ecos, o.n)
    // Lifecycle: setup first and only there, with the decoded problem's
    // arguments; solve and cleanup exactly once each when a workspace exists
    // and never otherwise; the result is built once, and cleanup follows it
    // as the last call.
    ensures |r.trace| == (if ecos.setupOutcome.Some? then 4 else 2)
    ensures r.trace[0] == Setup(SetupArgs(ReadProblem(o, ti)))
    ensures forall i :: 0 <= i < |r.trace| ==>
              && (r.trace[i].Setup? <==> i == 0)
              && (r.trace[i].Cleanup? ==> ecos.setupOutcome.Some? && i == |r.trace| - 1)
    ensures multiset(r.trace)[Solve] == (if ecos.setupOutcome.Some? then 1 else 0)
    ensures multiset(r.trace)[Cleanup(0)] == (if ecos.setupOutcome.Some? then 1 else 0)
    ensures multiset(r.trace)[BuildResult] == 1
    ensures ecos.setupOutcome.Some? ==>
              r.trace[1] == Solve && r.trace[|r.trace| - 2] == BuildResult
              && r.trace[|r.trace| - 1] == Cleanup(0)
    ensures ecos.setupOutcome.None? ==> r.trace[|r.trace| - 1] == BuildResult
    // Result: the exit flag is FATAL without a workspace and solve's code
    // otherwise; only an optimal run reports the objective and the first n
    // solution entries, every other run a zero objective and no solution.
    ensures r.result.exitFlag == (if ecos.setupOutcome.Some? then ecos.solveExit else EcosFatal)
    ensures ShapedAs(r.result, to)
    ensures r.result.exitFlag == EcosOptimal ==>
              && ecos.setupOutcome.Some?
              && r.result.objective == WriteFloatType(ecos.setupOutcome.value.cx, to)
              && |r.result.solution| == o.n
              && forall i :: 0 <= i < o.n ==>
                   r.result.solution[i] == WriteFloatType(ecos.setupOutcome.value.x[i], to)
    ensures r.result.exitFlag != EcosOptimal ==>
              r.result.objective == WriteFloatType(PositiveZero, to) && r.result.solution == []
  {
    var problem := ReadProblem(o, ti);
    var exitFlag := if ecos.setupOutcome.Some? then ecos.solveExit else EcosFatal;
    Run(Package(exitFlag, ecos.setupOutcome, problem.n, to),
        Lifecycle(problem, ecos.setupOutcome.Some?))
  }

  /** The optimal result tuple decodes back to the workspace's numbers
      whenever each of them survives the scalar round trip under the tag. */
  lemma PackageReadsBack(work: Workspace, n: int, to: FloatType)
    requires 0 <= n <= |work.x|
    requires WritesExactly(work.cx, to)
    requires forall i :: 0 <= i < n ==> WritesExactly(work.x[i], to)
    ensures var r := Package(EcosOptimal, Some(work), n, to);
            && Conforms(r.objective, to) && ReadFloatType(r.objective, to) == work.cx
            && AllConform(r.solution, n, to) && ReadFloatTypeArray(r.solution, n, to) == work.x[..n]
  {
    ScalarRoundTrip(work.cx, to);
    var xs := work.x[..n];
    assert forall i :: 0 <= i < |xs| ==> WritesExactly(xs[i], to);
    ArrayRoundTrip(xs, to);
    var sol := Package(EcosOptimal, Some(work), n, to).solution;
    var w := WriteFloatTypeArray(xs, |xs|, to);
    assert sol == w by {
      forall i | 0 <= i < n
        ensures sol[i] == w[i]
      {
      }
    }
  }

  /** A caller can recover the solver's numbers from an optimal result,
      whenever each of them survives the scalar round trip under the output
      tag (always for Float). */
  lemma OptimalResultReadsBack(o: HostProblem, ti: FloatType, to: FloatType, ecos: Ecos)
    requires Readable(o, ti) && SizedFor(ecos, o.n)
    requires ecos.setupOutcome.Some? && ecos.solveExit == EcosOptimal
    requires WritesExactly(ecos.setupOutcome.value.cx, to)
    requires forall i :: 0 <= i < o.n ==> WritesExactly(ecos.setupOutcome.value.x[i], to)
    ensures Conforms(RunSolverGeneric(o, ti, to, ecos).result.objective, to)
    ensures ReadFloatType(RunSolverGeneric(o, ti, to, ecos).result.objective, to)
            == ecos.setupOutcome.value.cx
    ensures AllConform(RunSolverGeneric(o, ti, to, ecos).result.solution, o.n, to)
    ensures ReadFloatTypeArray(RunSolverGeneric(o, ti, to, ecos).result.solution, o.n, to)
            == ecos.setupOutcome.value.x[..o.n]
  {
    PackageReadsBack(ecos.setupOutcome.value, o.n, to);
  }
}

=== FILE: sparse_matrix.dfy ===
/** The sparse-matrix reader of src/LeanECOS.c: assembles a compressed sparse
    column record from the host's five fields (nnz, cols, values, rowIdx,
    colPtr), inferring the row count from the row indices. */
module SparseMatrix {
  import opened Binary64
  import opened ScalarCodec
  import opened ArrayCodec

  /** The host matrix: number of non-zeros, number of columns, the non-zero
      values, their row indices and the column pointers. */
  datatype HostMatrix = HostMatrix(nnz: int, cols: int, values: seq<HostScalar>,
                                   rowIdx: seq<int>, colPtr: seq<int>)

  /** The solver's CSC record: values `pr`, row indices `ir`, column
      pointers `jc`. */
  datatype Csc = Csc(rows: int, cols: int, nnz: int, pr: seq<Bits64>,
                     ir: seq<int>, jc: seq<int>)

  /** How many column pointers are read: cols + 1, except that a matrix
      without positive column count carries none. */
  function ColPtrLength(cols: int): nat {
    if cols > 0 then cols + 1 else 0
  }

  /** What the reader demands of the host matrix: enough entries in every
      array for the lengths it reads, and values readable under the tag. */
  predicate Readable(o: HostMatrix, t: FloatType) {
    && 0 <= o.nnz <= |o.values|
    && o.nnz <= |o.rowIdx|
    && ColPtrLength(o.cols) <= |o.colPtr|
    && AllConform(o.values, o.nnz, t)
  }

  /** The running maximum of the row-index loop after k iterations, starting
      from 0: an upper bound of 0 and of the first k row indices that is 0 or
      one of them. */
  function RowMax(rowIdx: seq<int>, k: int): (m: int)
    requires 0 <= k <= |rowIdx|
    ensures m >= 0
    ensures forall i :: 0 <= i < k ==> rowIdx[i] <= m
    ensures m == 0 || exists i :: 0 <= i < k && rowIdx[i] == m
    decreases k
  {
    if k == 0 then 0
    else
      var prev := RowMax(rowIdx, k - 1);
      if rowIdx[k - 1] > prev then rowIdx[k - 1] else prev
  }

  /** read_lean_floattype_sparse_matrix. The row count is one more than the
      largest row index, counting 0 as a candidate, so a matrix without
      non-zeros has one row. */
  function ReadSparseMatrix(o: HostMatrix, t: FloatType): (r: Csc)
    requires Readable(o, t)
    ensures r.nnz == o.nnz && r.cols == o.cols
    ensures |r.pr| == o.nnz && forall i :: 0 <= i < o.nnz ==> r.pr[i] == ReadFloatType(o.values[i], t)
    ensures |r.ir| == o.nnz && forall i :: 0 <= i < o.nnz ==> r.ir[i] == o.rowIdx[i]
    ensures |r.jc| == ColPtrLength(o.cols) && forall j :: 0 <= j < |r.jc| ==> r.jc[j] == o.colPtr[j]
    ensures r.rows >= 1
    ensures forall i :: 0 <= i < |r.ir| ==> r.ir[i] < r.rows
    ensures r.rows == 1 || exists i :: 0 <= i < |r.ir| && r.ir[i] == r.rows - 1
    ensures o.nnz == 0 ==> r.rows == 1
  {
    var val := ReadFloatTypeArray(o.values, o.nnz, t);
    var rowIdx := ReadIntArray(o.rowIdx, o.nnz);
    var colPtr := ReadIntArray(o.colPtr, ColPtrLength(o.cols));
    var m := RowMax(rowIdx, o.nnz);
    Csc(m + 1, o.cols, o.nnz, val, rowIdx, colPtr)
  }

  /** The CSC invariants: lengths agree with the counts, column pointers
      start at 0, never decrease and end at nnz, and every row index lies in
      [0, rows). */
  predicate WellFormed(a: Csc) {
    && a.cols >= 0 && a.nnz >= 0
    && |a.pr| == a.nnz && |a.ir| == a.nnz
    && (a.cols > 0 ==>
          && |a.jc| == a.cols + 1
          && a.jc[0] == 0 && a.jc[a.cols] == a.nnz
          && forall j :: 0 <= j < a.cols ==> a.jc[j] <= a.jc[j + 1])
    && (forall i :: 0 <= i < |a.ir| ==> 0 <= a.ir[i] < a.rows)
  }

  /** Column pointers of a CSC matrix as the host sends them. */
  predicate HostColPtrValid(o: HostMatrix) {
    && o.cols >= 0 && o.nnz >= 0
    && (o.cols > 0 ==>
          && ColPtrLength(o.cols) <= |o.colPtr|
          && o.colPtr[0] == 0 && o.colPtr[o.cols] == o.nnz
          && forall j :: 0 <= j < o.cols ==> o.colPtr[j] <= o.colPtr[j + 1])
  }

  /** The reader never checks the CSC invariants, but it keeps them: a host
      matrix with valid column pointers and non-negative row indices gives a
      well-formed record, the inferred row count bounding every row index. */
  lemma ReadKeepsWellFormed(o: HostMatrix, t: FloatType)
    requires Readable(o, t) && HostColPtrValid(o)
    requires forall i :: 0 <= i < o.nnz ==> 0 <= o.rowIdx[i]
    ensures WellFormed(ReadSparseMatrix(o, t))
  {
    var r := ReadSparseMatrix(o, t);
    if o.cols > 0 {
      assert r.jc[0] == o.colPtr[0] && r.jc[o.cols] == o.colPtr[o.cols];
      forall j | 0 <= j < o.cols
        ensures r.jc[j] <= r.jc[j + 1]
      {
        assert r.jc[j] == o.colPtr[j] && r.jc[j + 1] == o.colPtr[j + 1];
      }
    }
  }

  /** The reader's worked examples: row indices [0, 2, 1] give three rows,
      and a two-column matrix without non-zeros gets one row, not zero. */
  lemma InferredRowsExamples(vals: seq<HostScalar>)
    requires |vals| == 3 && AllConform(vals, 3, Float)
    ensures ReadSparseMatrix(HostMatrix(3, 2, vals, [0, 2, 1], [0, 2, 3]), Float).rows == 3
    ensures ReadSparseMatrix(HostMatrix(0, 2, [], [], [0, 0, 0]), Float).rows == 1
    ensures ReadSparseMatrix(HostMatrix(0, 0, [], [], []), Float).jc == []
  {
  }
}

=== FILE: wrappers.dfy ===
/** The optional-value wrapper used for the solver's setup outcome and for the
    exact normalisation of a dyadic value, which may not fit a binary64. */
module Wrappers {

  datatype Option<+T> = None | Some(value: T)

}
